=== FILE: README.md ===
# local-scripts notes and display logic, in Dafny

This project models the pure logic behind the `notes` and `wm` subcommands of
a personal Rust command-line tool. The tool is organised around a slip-box of
markdown notes under `$HOME/Notes/slipbox`.

- **Slugs** turns a page title into a file name (`title_to_filename`). `" / "`
  collapses to `.`, then space, `:`, `,` and `.` each become `-`, then any
  remaining `/` becomes `.`, and finally `.` and the extension are appended.
  Rust's `str::replace` is modelled as a leftmost, non-overlapping
  replace-all (`Strings.ReplaceAll`).
- **Paths** is the part of `std::path` the tool relies on, for `/`-separated
  Unicode paths: `file_name`, `extension`, `file_stem`, `parent`, `join`,
  and `split_basename`, which is built on them.
- **SubPage** is `notes subpage --source FILE`. It takes the clipboard text as
  a title and builds `<dir>/<stem>.<slug>.<ext>` next to the source note.
  It yields the markdown link `[title](path)`. Each `panic!` that a Unicode
  path can reach becomes a `SubPageError`.
- **Notes** covers several pieces:
  - the listing produced by `get_notes`, absolute or relative to the notes
    root through `strip_prefix`;
  - the `--exclude-journal` filter;
  - the path `notes find` hands to the editor;
  - the editor fallback (`--editor`, then `$EDITOR`, then `nvim`).
- **Display** is `get_display`. It takes the values of `WAYLAND_DISPLAY`,
  `DISPLAY` and `XDG_SESSION_TYPE` as `Option<string>`. `None` stands for
  an unset variable and also for a non-Unicode value, because `env::var`
  returns an error for both.
- **Options** and **Seqs** are support modules. Options holds `Option` and
  `Result`. Seqs holds `Filter`, `Count` and the subsequence relation.

The environment, the clipboard and the directory walk are inputs. `HOME` is
the `home` argument of `Notes.NotesDir`. The walk is the sequence of regular
files it found, in walk order. The clipboard is an `Option<string>`.

The code and its documentation disagree on one point, and the model follows
the code. The doc comment at `src/main.rs:90-93` promises a lower-cased file
name (`source.title-of-the-page.md`). `title_to_filename` never changes
case, so the result is `source.Title-of-the-Page.md`
(`SubPage.SourceNoteExample`, `Slugs.SlugKeepsOrdinaryChars`). Likewise
`A / B` becomes `A-B.md`, not `A.B.md`. The `.` that `" / "` leaves behind
is rewritten to `-` by the next pass (`Slugs.SpacedSlashBecomesDash`).

## Model

| member | source | states |
|---|---|---|
| Slugs.Slug | src/main.rs:286-292 | the three replace passes never lengthen the title and leave no space, colon, comma or slash |
| Slugs.TitleToFilename | src/main.rs:285-295 | the file name always ends in `.` followed by the extension |
| Slugs.SlugIsPointwise | src/main.rs:288-292 | the three replace passes equal one character map (`SlugChar`) applied after `" / "` has collapsed to one character |
| Slugs.ReplaceEachIsMap | src/main.rs:289-291 | the loop over `" "`, `":"`, `","`, `"."` replaces exactly the characters in that list, keeps every other character in place, and keeps the length |
| Slugs.SlugIsSafe | src/main.rs:288-292 | no space, colon, comma or slash survives in a slug, and a slug is never longer than its title |
| Slugs.FilenameIsSafe | src/main.rs:285-295 | the file name is a slug free of space, colon, comma and slash, followed by `.` and the extension |
| Slugs.SlugOfPlainTitleIsMap | src/main.rs:288-292 | without `" / "` the slug is the title mapped character by character, with the same length |
| Slugs.SlugKeepsOrdinaryChars | src/main.rs:285-295 | every other character keeps its position and value, so letters are never re-cased |
| Slugs.NoSlashNoSpacedSlash | src/main.rs:288 | a title without `/` has no `" / "` for the first pass to collapse |
| Slugs.CollapseOneSpacedSlash | src/main.rs:288 | one `" / "` between two slash-free parts collapses to exactly one `.` |
| Slugs.SpacedSlashBecomesDash | src/main.rs:288-292 | `Slug(a + " / " + b) == Slug(a) + "-" + Slug(b)`: the collapsed `.` is dashed by the next pass |
| Slugs.TitleOfThePageExample | src/main.rs:285-295 | `Title of the Page` with `md` gives `Title-of-the-Page.md` |
| Slugs.SpacedSlashExample | src/main.rs:285-295 | `A / B` with `md` gives `A-B.md` |
| Slugs.BareSlashExample | src/main.rs:285-295 | `a/b` with `md` gives `a.b.md` |
| Slugs.PunctuationExample | src/main.rs:285-295 | `A: B, C.` with `txt` gives `A--B--C-.txt`: each character becomes one `-` |
| Strings.ReplaceAll | src/main.rs:288-292 | Rust's `str::replace`, leftmost and non-overlapping: a replacement no longer than the pattern never lengthens the text; `ReplaceAllAbsent`, `ReplaceCharIsMap` and `Slugs.CollapseOneSpacedSlash` state its content |
| Strings.ReplaceAllAbsent | src/main.rs:288 | `replace` leaves a string without the pattern unchanged |
| Strings.ReplaceAllNotLonger | src/main.rs:288 | `replace` with a replacement no longer than the pattern never lengthens the string |
| Strings.ReplaceCharIsMap | src/main.rs:290-292 | replacing one character by another is a pointwise map that keeps the length |
| Strings.ContainsAt | src/main.rs:206-207 | `contains` holds exactly when some index starts a copy of the pattern |
| Paths.FileName | src/main.rs:272-274 | a file name is non-empty, has no separator, is neither `.` nor `..`, and is the last component of the path |
| Paths.Extension | src/main.rs:168-171 | an extension exists only when there is a file name; it has no `.` and no separator |
| Paths.Stem | src/main.rs:182-186 | a stem exists exactly when a file name does; it is a non-empty prefix of the file name |
| Paths.Parent | src/main.rs:178-180 | there is no parent exactly for the empty path and the root; otherwise the parent is a proper prefix |
| Paths.Join | src/main.rs:191-192 | an absolute file replaces the directory; otherwise the result starts with the directory and ends with the file |
| Paths.StemAndExtensionRebuildName | src/main.rs:168-186 | stem, `.` and extension put back together give the file name |
| Paths.NameWithExtension | src/main.rs:168-186 | a file name `base.ext` with no `.` in `ext` has stem `base` and extension `ext` |
| Paths.FileNameHasParent | src/main.rs:178-180 | a path with a file name always has a parent |
| Paths.JoinThenSplit | src/main.rs:191-192 | after joining a plain name onto a directory, the file name reads back, and so does the parent for a tidy directory |
| Paths.SplitThenJoin | src/main.rs:270-283 | joining a path's parent with its file name rebuilds the path when it has no doubled separators |
| Paths.SplitBasename | src/main.rs:270-283 | a split exists exactly when there is a file name, and it is the path's parent and its file name |
| Paths.SplitBasenameJoinsBack | src/main.rs:270-283 | the two parts of the split join back to the path when no separators are doubled |
| SubPage.SubPagePath | src/main.rs:165-192 | the sub-page path fails exactly when the source has no extension, and then with `NoExtension` |
| SubPage.SubPagePathShape | src/main.rs:176-192 | the sub-page keeps the source's directory and extension, its stem is the source stem, `.` and the slug, and its name is the source stem, `.` and `title_to_filename` |
| SubPage.SubPagePathOf | src/main.rs:176-192 | for a source `dir/root.ext` the sub-page is `dir/root.` followed by `title_to_filename(title, ext)` |
| SubPage.MarkdownLink | src/main.rs:194 | the link starts with `[`, ends with `)` and has the title, the target and four brackets |
| SubPage.LinkRoundTrip | src/main.rs:194 | a link whose title has no `]` parses back to its title and target |
| SubPage.SubPageLink | src/main.rs:162-194 | the link fails exactly when the clipboard is empty or the source has no extension, and the clipboard failure comes first |
| SubPage.SubPageLinkReadsBack | src/main.rs:162-194 | the produced link reads back as the title and a target with the slugged stem, the source's extension and the source's directory |
| SubPage.SubPageLinkOf | src/main.rs:162-194 | for a source `dir/root.ext` the link targets `dir/root.` followed by `title_to_filename(title, ext)` |
| SubPage.SourceNoteExample | src/main.rs:90-93 | the documented example gives `[Title of the Page](/path/to/source.Title-of-the-Page.md)`, which is not lower-cased |
| SubPage.NoDotNoExtension | src/main.rs:168-171 | a name whose only `.` is the leading one has no extension |
| SubPage.NoExtensionExample | src/main.rs:168-171 | `README` and `.bashrc` yield `NoExtension` whatever the title |
| Notes.NotesDir | src/main.rs:230-233 | the notes root is the home directory followed directly by `/Notes/slipbox`: it starts with `home`, ends with `/Notes/slipbox`, and has nothing in between |
| Notes.StripPrefix | src/main.rs:241-247 | stripping succeeds exactly for the root itself and for paths below it, and the root, a separator and the remainder rebuild the path |
| Notes.Render | src/main.rs:241-250 | an absolute line is the walked path. A relative line exists exactly for the root and the paths below it. It is empty for the root itself. For a path below the root, the root, `/` and the line rebuild the walked path |
| Notes.RenderNotes | src/main.rs:235-254 | rendering succeeds exactly when every file renders; the listing has one line per walked file, in order |
| Notes.StripThenJoin | src/main.rs:241-247 | a file strictly below the root becomes a non-empty relative path that joins back to it |
| Notes.JoinThenStrip | src/main.rs:241-247 | stripping the root off `root/rel` gives back `rel` |
| Notes.AbsoluteRenderIsIdentity | src/main.rs:248-250 | without `--relative` the listing is the walk itself |
| Notes.FindTargetAsWritten | src/main.rs:157 | as written, the target always strips back to the selection, so every selection is treated as a relative line |
| Notes.FindTarget | src/main.rs:157 | the corrected `find` target for the finding at that line: the opened file is one the listing renders as exactly the selected line, in either mode |
| Notes.FindOpensTheListedFile | src/main.rs:153-160 | with the corrected `find` target, whichever listed line is picked, in either mode, the editor gets the file the walk found |
| Notes.AsWrittenFindMissesAbsoluteSelection | src/main.rs:157 | as written, an absolute selection is joined onto the root. The target is not the selected file. Under an absolute root it contains a doubled separator, so it is none of the listed files that have no doubled separator |
| Notes.ExcludeJournal | src/main.rs:202-208 | without the flag nothing changes; with it no entry containing `/journal` or `.journal` remains |
| Notes.ExcludeJournalIsTheJournalFreeSelection | src/main.rs:202-208 | with the flag the result is the order-preserving subsequence of all journal-free entries, and the only such subsequence |
| Notes.ListAsWritten | src/main.rs:201-212 | as written, the listing exists exactly when rendering succeeds. Without the flag it is every rendered line. With the flag it keeps every journal-free rendered line, in order, one line per such entry, and nothing else |
| Notes.ListIsModeIndependent | src/main.rs:201-212 | the corrected listing names the same notes in both modes: each relative line joined to the root is the absolute line |
| Notes.ListAgreesWhenAbsolute | src/main.rs:201-212 | without `--relative` the corrected listing equals the listing as written |
| Notes.AsWrittenListKeepsRelativeJournal | src/main.rs:201-212 | as written, for any home directory, `<root>/journal/a.md` is dropped from the absolute listing but kept as `journal/a.md` in the relative one; the corrected listing drops it in both |
| Notes.JournalDirectoryEntryIsKept | src/main.rs:206-207 | `journal/a.md` contains neither `/journal` nor `.journal` |
| Notes.ResolveEditor | src/main.rs:141-150 | `--editor` wins, then `$EDITOR`, then `nvim` |
| Notes.ResolveEditorIsFirstSet | src/main.rs:141-150 | the editor is the first set value of `--editor`, `$EDITOR` and `nvim`, read by an independent first-set lookup |
| Seqs.Filter | src/main.rs:204-208 | the kept entries satisfy the predicate, come from the input, and every satisfying entry is kept |
| Seqs.FilterIsOrderedSelection | src/main.rs:204-208 | a filter result is an order-preserving subsequence with one entry per satisfying input entry |
| Seqs.FullSelectionIsFilter | src/main.rs:204-208 | any subsequence of satisfying entries that is as long as their count is the filter result |
| Seqs.FilterTwice | src/main.rs:204-208 | two filters in a row are one filter by the conjunction |
| Display.IsWayland | src/utils/mod.rs:12-23 | `is_wayland` holds only when the session type is set and is not `x11`; `GetDisplay` gives its exact condition |
| Display.IsX11 | src/utils/mod.rs:25-36 | `is_x11` never holds together with `is_wayland` |
| Display.GetDisplay | src/utils/mod.rs:38-46 | Wayland exactly when `WAYLAND_DISPLAY` is set and the session type is `wayland`; X11 exactly when `DISPLAY` is set and it is `x11`; Other otherwise |
| Display.WaylandAndX11Exclusive | src/utils/mod.rs:12-36 | `is_wayland` and `is_x11` never both hold |
| Display.CheckOrderIrrelevant | src/utils/mod.rs:38-46 | testing X11 first would give the same answer |
| Display.UnsetSessionIsOther | src/utils/mod.rs:17-19 | without `XDG_SESSION_TYPE` the result is Other, whatever the other two variables say |
| Display.SessionTypeIsCaseSensitive | src/utils/mod.rs:30-32 | `Wayland` or `X11` as the session type gives Other: the comparison is exact |

## Left out

- `src/wm/take_screenshot.rs` is not part of this model. This covers the screenshot command, `get_clipboard` and `set_clipboard`. The clipboard text is the `clipboard` argument of `SubPage.SubPageLink`. Setting the clipboard and printing the link are output.
- The directory walk (`walkdir`), its order and its errors are left out. The walked regular files are an input. So are `HOME`, `EDITOR` and the three display variables.
- The fzf chooser, its `bat` preview, and taking the first line of fzf's output are left out. The selected line is an input of `Notes.FindTarget`.
- Launching the editor, command-line parsing, the `name`/`config`/`debug` echo and the `test` command are left out, because they are I/O with no logic to prove.
- Failed `to_str` conversions are left out. Paths are `seq<char>`, so a non-UTF-8 name cannot occur.
- Paths.FileName: the model covers only `/`-separated paths, read as plain text. Rust's `Path` works on normalised components. It ignores a trailing separator, an interior `.` component and a trailing `.` component. So `a/b/` and `a/b/.` have the file name `b` there, but none in this model. Repeated separators are not collapsed either: `Paths.SplitThenJoin` assumes none.
- Strings.ReplaceAll requires a non-empty pattern. The program only replaces constant non-empty patterns, so Rust's behaviour for an empty pattern is not modelled.
- SubPage.SubPagePath: the `NoParent` and `NoStem` errors are kept to mirror the source's panics. `Paths.FileNameHasParent` and `Paths.Stem` show they cannot occur once an extension exists.
- Notes.RenderNotes returns `None` where the program panics on `unwrap`, for a walked file outside the root. The walk never produces such a file.
- SubPage.MarkdownLink states only the link's shape. Its content is stated by `SubPage.LinkRoundTrip`, for titles without `]`. A title containing `]` gives a link that does not parse back, and the program does no escaping.
- Notes.List: the corrected listing looks for `/journal` and `.journal` in the whole walked path. If the notes root itself contains one of them, every note is excluded. The as-written absolute listing does the same.

## Findings

| source | as written | input that shows it | evidently intended | confidence | as-written member | corrected member |
|---|---|---|---|---|---|---|
| src/main.rs:157 | `find` always prefixes the notes root to the fzf selection | without `--relative`, selecting `/home/u/Notes/slipbox/a.md` opens `/home/u/Notes/slipbox//home/u/Notes/slipbox/a.md` | prefix the root only when the listing was relative | high, not executed | Notes.AsWrittenFindMissesAbsoluteSelection | Notes.FindOpensTheListedFile |
| src/main.rs:202-208 | the journal filter runs on the rendered lines, so with `--relative` a note in the root's `journal` directory has no `/` before `journal` | `notes --relative list --exclude-journal` with the walked file `<root>/journal/a.md` prints `journal/a.md`; without `--relative` it is excluded | exclude the same notes in both modes, by filtering the walked paths before rendering | medium, not executed | Notes.AsWrittenListKeepsRelativeJournal | Notes.ListIsModeIndependent |

=== FILE: display.dfy ===
/** Which display server the session runs, read from three environment
    variables. The environment is an input: each variable is `None` when it
    is unset (or not valid Unicode), otherwise its value. */
module Display {
  import opened Options

  datatype DisplayServer = Wayland | X11 | Other

  /** `WAYLAND_DISPLAY`, `DISPLAY` and `XDG_SESSION_TYPE`. */
  datatype Env = Env(waylandDisplay: Option<string>, display: Option<string>, sessionType: Option<string>)

  /** The session type is set and is exactly `value` (no case folding). */
  predicate SessionIs(env: Env, value: string) {
    env.sessionType.Some? && env.sessionType.value == value
  }

  /** `is_wayland`: `WAYLAND_DISPLAY` is set and the session type is `wayland`.
      The contract records the half of the mutual exclusion with `is_x11`
      that `IsX11` builds on: a Wayland session is never an `x11` one. */
  function IsWayland(env: Env): (b: bool)
    ensures b ==> env.sessionType.Some? && env.sessionType.value != "x11"
  {
    env.waylandDisplay.Some? && SessionIs(env, "wayland")
  }

  /** `is_x11`: `DISPLAY` is set and the session type is `x11`. */
  function IsX11(env: Env): (b: bool)
    ensures b ==> !IsWayland(env)
  {
    var b := env.display.Some? && SessionIs(env, "x11");
    assert b ==> env.sessionType.value[0] == 'x';
    b
  }

  /** `get_display`: Wayland is tried first, then X11, else Other. */
  function GetDisplay(env: Env): (r: DisplayServer)
    ensures r == Wayland <==> env.waylandDisplay.Some? && env.sessionType == Some("wayland")
    ensures r == X11 <==> env.display.Some? && env.sessionType == Some("x11")
    ensures r == Other <==>
      (env.waylandDisplay.None? || env.sessionType != Some("wayland"))
      && (env.display.None? || env.sessionType != Some("x11"))
  {
    if IsWayland(env) then Wayland
    else if IsX11(env) then X11
    else Other
  }

  /** The two tests never both hold: one session type cannot be both names. */
  lemma WaylandAndX11Exclusive(env: Env)
    ensures !(IsWayland(env) && IsX11(env))
  {
    if IsWayland(env) {
      assert env.sessionType.value[0] == 'w';
    }
  }

  /** A reference reading that asks about X11 first. */
  function GetDisplayX11First(env: Env): DisplayServer {
    if IsX11(env) then X11
    else if IsWayland(env) then Wayland
    else Other
  }

  /** The order of the two tests in `get_display` does not matter. */
  lemma CheckOrderIrrelevant(env: Env)
    ensures GetDisplay(env) == GetDisplayX11First(env)
  {
    WaylandAndX11Exclusive(env);
  }

  /** Without `XDG_SESSION_TYPE` the display is never recognised, whatever
      `WAYLAND_DISPLAY` and `DISPLAY` say. */
  lemma UnsetSessionIsOther(wayland: Option<string>, display: Option<string>)
    ensures GetDisplay(Env(wayland, display, None)) == Other
  {
  }

  /** The session type is compared exactly: other capitalisations are not recognised. */
  lemma SessionTypeIsCaseSensitive(wayland: Option<string>, display: Option<string>, session: string)
    requires session == "Wayland" || session == "X11"
    ensures GetDisplay(Env(wayland, display, Some(session))) == Other
  {
    assert session[0] != 'w' && session[0] != 'x';
  }
}

=== FILE: notes.dfy ===
/** The `notes` command's pure parts: where the notes live, how walked paths
    are rendered, how the journal is filtered out of a listing, which file
    `find` opens, and which editor it uses. The directory walk itself is an
    input: the sequence of regular files it found, in walk order. */
module Notes {
  import opened Options
  import opened Strings
  import opened Seqs
  import opened Paths

  /** The notes root, relative to the home directory. */
  const NotesSubdir: string := "/Notes/slipbox"

  /** The editor used when neither `--editor` nor `EDITOR` names one. */
  const DefaultEditor: string := "nvim"

  /** `get_notes_dir`. */
  function NotesDir(home: string): (r: string)
    ensures StartsWith(r, home) && EndsWith(r, "/Notes/slipbox")
    ensures |r| == |home| + |NotesSubdir|
  {
    home + NotesSubdir
  }

  /** `p` lies strictly below `dir`: `dir`, a separator, and a non-empty rest. */
  predicate StrictlyUnder(dir: string, p: string) {
    |p| > |dir| + 1 && StartsWith(p, dir + "/")
  }

  /** `Path::strip_prefix(dir)`, for a `dir` without a trailing separator:
      the path itself gives the empty path, a path below it gives the part
      after `dir` and the separator, and anything else fails. */
  function StripPrefix(dir: string, p: string): (r: Option<string>)
    ensures r.Some? <==> p == dir || StartsWith(p, dir + "/")
    ensures r.Some? ==> (p == dir && r.value == "") || p == dir + "/" + r.value
  {
    if p == dir then Some("")
    else if StartsWith(p, dir + "/") then Some(p[|dir| + 1..])
    else None
  }

  /** One walked path as `get_notes` prints it; none where `unwrap` would panic. */
  function Render(dir: string, p: string, relative: bool): (r: Option<string>)
    ensures !relative ==> r == Some(p)
    ensures relative ==> (r.Some? <==> p == dir || StartsWith(p, dir + "/"))
    ensures relative && r.Some? && p != dir ==> dir + "/" + r.value == p
    ensures relative && p == dir ==> r == Some("")
  {
    if relative then StripPrefix(dir, p) else Some(p)
  }

  /** `get_notes` after the walk: every file rendered relative to `dir` or
      left absolute. */
  function RenderNotes(dir: string, files: seq<string>, relative: bool): (r: Option<seq<string>>)
    ensures r.Some? <==> forall i :: 0 <= i < |files| ==> Render(dir, files[i], relative).Some?
    ensures r.Some? ==> |r.value| == |files|
    ensures r.Some? ==> forall i :: 0 <= i < |files| ==> Render(dir, files[i], relative) == Some(r.value[i])
  {
    if |files| == 0 then Some([])
    else
      match Render(dir, files[0], relative)
      case None => None
      case Some(first) =>
        match RenderNotes(dir, files[1..], relative)
        case None => None
        case Some(rest) => Some([first] + rest)
  }

  /** A one-file walk renders to its one line. */
  lemma RenderOne(dir: string, p: string, relative: bool)
    requires Render(dir, p, relative).Some?
    ensures RenderNotes(dir, [p], relative) == Some([Render(dir, p, relative).value])
  {
    assert [p][0] == p && [p][1..] == [];
    assert RenderNotes(dir, [], relative) == Some([]);
    assert [Render(dir, p, relative).value] + [] == [Render(dir, p, relative).value];
  }

  /** Stripping the notes root and joining it back again are inverse on paths below it. */
  lemma StripThenJoin(dir: string, p: string)
    requires StrictlyUnder(dir, p)
    ensures StripPrefix(dir, p).Some? && |StripPrefix(dir, p).value| > 0
    ensures dir + "/" + StripPrefix(dir, p).value == p
  {
  }

  lemma JoinThenStrip(dir: string, rel: string)
    ensures StripPrefix(dir, dir + "/" + rel) == Some(rel)
  {
    var p := dir + "/" + rel;
    assert StartsWith(p, dir + "/") && p != dir;
    assert p[|dir| + 1..] == rel;
  }

  // ---------------------------------------------------------------------
  // `notes find`: the path handed to the editor.

  /** The program as written: the selection is always joined onto the notes
      root, that is, every selection is treated as a relative line. */
  function FindTargetAsWritten(dir: string, selected: string): (r: string)
    ensures Render(dir, r, true) == Some(selected)
  {
    JoinThenStrip(dir, selected);
    dir + "/" + selected
  }

  /** As evidently intended: only a relative selection is joined onto the
      notes root. The file opened is one that the listing renders as exactly
      the selected line, in either mode. */
  function FindTarget(dir: string, relative: bool, selected: string): (r: string)
    ensures Render(dir, r, relative) == Some(selected)
  {
    if relative then FindTargetAsWritten(dir, selected) else selected
  }

  /** Whatever line of the listing is picked, in either mode, `find` opens
      the very file the walk found. In relative mode this is also the
      round trip of relativisation: the relative listing joined onto the
      root is the absolute listing. */
  lemma {:induction false} FindOpensTheListedFile(dir: string, files: seq<string>, relative: bool)
    requires forall i :: 0 <= i < |files| ==> StrictlyUnder(dir, files[i])
    ensures RenderNotes(dir, files, relative).Some?
    ensures forall i :: 0 <= i < |files| ==>
      FindTarget(dir, relative, RenderNotes(dir, files, relative).value[i]) == files[i]
  {
    forall i | 0 <= i < |files|
      ensures Render(dir, files[i], relative).Some?
    {
      StripThenJoin(dir, files[i]);
    }
    var listed := RenderNotes(dir, files, relative).value;
    forall i | 0 <= i < |files|
      ensures FindTarget(dir, relative, listed[i]) == files[i]
    {
      StripThenJoin(dir, files[i]);
    }
  }

  /** As written, `find` without `--relative` joins an already absolute
      selection onto the root. The result is not the selected file; when the
      root is absolute it holds a doubled separator, so it is none of the
      listed files that have none (a walk of a tidy root lists only such). */
  lemma AsWrittenFindMissesAbsoluteSelection(dir: string, p: string, files: seq<string>)
    requires StrictlyUnder(dir, p)
    ensures RenderNotes(dir, [p], false) == Some([p])
    ensures FindTargetAsWritten(dir, p) != p
    ensures StartsWith(dir, "/") ==> !NoDoubleSep(FindTargetAsWritten(dir, p))
    ensures StartsWith(dir, "/") && (forall i :: 0 <= i < |files| ==> NoDoubleSep(files[i]))
      ==> FindTargetAsWritten(dir, p) !in files
  {
    RenderOne(dir, p, false);
    var t := FindTargetAsWritten(dir, p);
    assert |t| > |p|;
    if StartsWith(dir, "/") {
      var k := |dir| + 1;
      if |dir| == 0 {
        assert false;
      }
      assert p[0] == (dir + "/")[0] == dir[0] == '/';
      assert t[k - 1] == '/' && t[k] == p[0];
      assert !NoDoubleSep(t);
    }
  }

  // ---------------------------------------------------------------------
  // `notes list --exclude-journal`.

  predicate NoSlashJournal(f: string) {
    !Contains(f, "/journal")
  }

  predicate NoDotJournal(f: string) {
    !Contains(f, ".journal")
  }

  /** Neither `/journal` nor `.journal` occurs in the path. */
  predicate JournalFree(f: string) {
    NoSlashJournal(f) && NoDotJournal(f)
  }

  /** The list arm's two filters, applied in order when the flag is set. */
  function ExcludeJournal(files: seq<string>, exclude: bool): (r: seq<string>)
    ensures !exclude ==> r == files
    ensures exclude ==> forall i :: 0 <= i < |r| ==> JournalFree(r[i])
  {
    if exclude then Filter(Filter(files, NoSlashJournal), NoDotJournal) else files
  }

  /** With the flag, the listing is the walk with exactly the journal entries
      removed: an order-preserving subsequence holding every journal-free
      entry, and the only one. */
  lemma ExcludeJournalIsTheJournalFreeSelection(files: seq<string>)
    ensures var r := ExcludeJournal(files, true);
      IsSubsequence(r, files) && |r| == Count(files, JournalFree)
      && (forall i :: 0 <= i < |files| && JournalFree(files[i]) ==> files[i] in r)
    ensures forall a: seq<string> ::
      IsSubsequence(a, files) && (forall i :: 0 <= i < |a| ==> JournalFree(a[i])) && |a| == Count(files, JournalFree)
      ==> a == ExcludeJournal(files, true)
  {
    FilterTwice(files, NoSlashJournal, NoDotJournal, JournalFree);
    FilterIsOrderedSelection(files, JournalFree);
    forall a: seq<string> |
      IsSubsequence(a, files) && (forall i :: 0 <= i < |a| ==> JournalFree(a[i])) && |a| == Count(files, JournalFree)
      ensures a == ExcludeJournal(files, true)
    {
      FullSelectionIsFilter(a, files, JournalFree);
    }
  }

  // ---------------------------------------------------------------------
  // `notes list`: walk, render, filter.

  /** The program as written: the filter runs on the rendered strings, so in
      relative mode a note in the root's `journal` directory no longer has a
      '/' before "journal" and survives the filter. */
  function ListAsWritten(dir: string, files: seq<string>, relative: bool, exclude: bool): (r: Option<seq<string>>)
    ensures r.Some? <==> RenderNotes(dir, files, relative).Some?
    ensures r.Some? ==> IsSubsequence(r.value, RenderNotes(dir, files, relative).value)
    ensures r.Some? && !exclude ==> r.value == RenderNotes(dir, files, relative).value
    ensures r.Some? && exclude ==> forall i :: 0 <= i < |r.value| ==> JournalFree(r.value[i])
    ensures r.Some? && exclude ==> |r.value| == Count(RenderNotes(dir, files, relative).value, JournalFree)
    ensures r.Some? && exclude ==> var rendered := RenderNotes(dir, files, relative).value;
      forall i :: 0 <= i < |rendered| && JournalFree(rendered[i]) ==> rendered[i] in r.value
  {
    match RenderNotes(dir, files, relative)
    case None => None
    case Some(rendered) =>
      ExcludeJournalIsTheJournalFreeSelection(rendered);
      IsSubsequenceOfItself(rendered);
      Some(ExcludeJournal(rendered, exclude))
  }

  /** As evidently intended: the journal is recognised on the walked
      (absolute) paths, and the survivors are then rendered. */
  function List(dir: string, files: seq<string>, relative: bool, exclude: bool): Option<seq<string>> {
    RenderNotes(dir, ExcludeJournal(files, exclude), relative)
  }

  /** The corrected listing names the same notes in both modes: the relative
      listing, joined back onto the root, is the absolute listing. */
  lemma ListIsModeIndependent(dir: string, files: seq<string>, exclude: bool)
    requires forall i :: 0 <= i < |files| ==> StrictlyUnder(dir, files[i])
    ensures List(dir, files, false, exclude) == Some(ExcludeJournal(files, exclude))
    ensures List(dir, files, true, exclude).Some?
    ensures var rel := List(dir, files, true, exclude).value;
      |rel| == |ExcludeJournal(files, exclude)|
      && forall i :: 0 <= i < |rel| ==> dir + "/" + rel[i] == ExcludeJournal(files, exclude)[i]
  {
    var kept := ExcludeJournal(files, exclude);
    forall i | 0 <= i < |kept|
      ensures StrictlyUnder(dir, kept[i])
    {
      if exclude {
        FilterTwice(files, NoSlashJournal, NoDotJournal, JournalFree);
      }
    }
    FindOpensTheListedFile(dir, kept, false);
    var absolute := RenderNotes(dir, kept, false).value;
    assert absolute == kept by {
      forall i | 0 <= i < |kept|
        ensures absolute[i] == kept[i]
      {
        assert FindTarget(dir, false, absolute[i]) == kept[i];
      }
    }
    FindOpensTheListedFile(dir, kept, true);
    var rel := RenderNotes(dir, kept, true).value;
    forall i | 0 <= i < |rel|
      ensures dir + "/" + rel[i] == kept[i]
    {
      assert FindTarget(dir, true, rel[i]) == kept[i];
    }
  }

  /** Absolute rendering keeps the walk exactly as it is. */
  lemma {:induction false} AbsoluteRenderIsIdentity(dir: string, files: seq<string>)
    ensures RenderNotes(dir, files, false) == Some(files)
  {
    if |files| > 0 {
      AbsoluteRenderIsIdentity(dir, files[1..]);
      assert [files[0]] + files[1..] == files;
    }
  }

  /** Without `--relative` the corrected listing is the listing as written. */
  lemma ListAgreesWhenAbsolute(dir: string, files: seq<string>, exclude: bool)
    ensures List(dir, files, false, exclude) == ListAsWritten(dir, files, false, exclude)
    ensures List(dir, files, false, exclude) == Some(ExcludeJournal(files, exclude))
  {
    AbsoluteRenderIsIdentity(dir, files);
    AbsoluteRenderIsIdentity(dir, ExcludeJournal(files, exclude));
  }

  /** The concrete case, for any home directory: the note `journal/a.md`
      of the root is dropped from the absolute listing but kept in the
      relative one. */
  lemma AsWrittenListKeepsRelativeJournal(home: string, rel: string)
    requires rel == "journal/a.md"
    ensures var dir := NotesDir(home);
      ListAsWritten(dir, [dir + "/" + rel], false, true) == Some([])
    ensures var dir := NotesDir(home);
      ListAsWritten(dir, [dir + "/" + rel], true, true) == Some([rel])
    ensures var dir := NotesDir(home);
      List(dir, [dir + "/" + rel], true, true) == Some([])
  {
    var dir := NotesDir(home);
    var p := dir + "/" + rel;
    JournalPathIsExcluded(dir, rel);
    RelativeJournalPathIsKept(rel);
    JoinThenStrip(dir, rel);
    ListOne(dir, p, true, true);
    ListOne(dir, p, false, true);
  }

  /** The absolute path of a note in the root's `journal` directory is filtered out. */
  lemma JournalPathIsExcluded(dir: string, rel: string)
    requires rel == "journal/a.md"
    ensures ExcludeJournal([dir + "/" + rel], true) == []
  {
    var p := dir + "/" + rel;
    assert !NoSlashJournal(p) by {
      assert p[|dir|..|dir| + 8] == "/journal";
      assert OccursAt(p, "/journal", |dir|);
      ContainsAt(p, "/journal");
    }
    assert [p][1..] == [];
  }

  /** Its relative form passes the filter. */
  lemma RelativeJournalPathIsKept(rel: string)
    requires rel == "journal/a.md"
    ensures ExcludeJournal([rel], true) == [rel]
  {
    JournalDirectoryEntryIsKept(rel);
    assert [rel][1..] == [];
  }

  /** Both listings of a one-file walk. */
  lemma ListOne(dir: string, p: string, relative: bool, exclude: bool)
    requires Render(dir, p, relative).Some?
    ensures ListAsWritten(dir, [p], relative, exclude) == Some(ExcludeJournal([Render(dir, p, relative).value], exclude))
    ensures ExcludeJournal([p], exclude) == [] ==> List(dir, [p], relative, exclude) == Some([])
  {
    RenderOne(dir, p, relative);
    assert RenderNotes(dir, [], relative) == Some([]);
  }

  /** The relative form of a note in the root's `journal` directory carries
      neither marker. */
  lemma JournalDirectoryEntryIsKept(rel: string)
    requires rel == "journal/a.md"
    ensures JournalFree(rel)
  {
    ContainsAt(rel, "/journal");
    ContainsAt(rel, ".journal");
    forall i: nat | i + 8 <= |rel|
      ensures !OccursAt(rel, "/journal", i) && !OccursAt(rel, ".journal", i)
    {
      assert rel[i..i + 8][0] == rel[i];
    }
  }

  // ---------------------------------------------------------------------
  // The editor `find` launches.

  /** `--editor` if given, else `EDITOR` if set, else `nvim`. */
  function ResolveEditor(flag: Option<string>, env: Option<string>): (r: string)
    ensures flag.Some? ==> r == flag.value
    ensures flag.None? && env.Some? ==> r == env.value
    ensures flag.None? && env.None? ==> r == DefaultEditor
  {
    match flag
    case Some(editor) => editor
    case None => env.UnwrapOr(DefaultEditor)
  }

  /** The first value that is set, in order of precedence. */
  function FirstSet(choices: seq<Option<string>>): Option<string> {
    if |choices| == 0 then None
    else if choices[0].Some? then choices[0]
    else FirstSet(choices[1..])
  }

  /** The editor is the first of `--editor`, `EDITOR` and `nvim` that is set. */
  lemma ResolveEditorIsFirstSet(flag: Option<string>, env: Option<string>)
    ensures FirstSet([flag, env, Some(DefaultEditor)]) == Some(ResolveEditor(flag, env))
  {
    var choices := [flag, env, Some(DefaultEditor)];
    assert choices[1..] == [env, Some(DefaultEditor)];
    assert choices[1..][1..] == [Some(DefaultEditor)];
    assert FirstSet([Some(DefaultEditor)]) == Some(DefaultEditor);
    assert FirstSet(choices[1..]) == Some(env.UnwrapOr(DefaultEditor));
  }
}

=== FILE: options.dfy ===
/** Failure-carrying values shared by the whole model.
    `Option` stands for Rust's `Option` (and for a `Result` whose error is
    discarded, as `std::env::var(..).is_ok()` does); `Result` carries the
    reason an operation that would panic in the program gives up. */
module Options {

  datatype Option<+T> = None | Some(value: T) {

    /** The wrapped value, or `default` when there is none (Rust's `unwrap_or`). */
    function UnwrapOr(default: T): T {
      match this
      case Some(v) => v
      case None => default
    }
  }

  datatype Result<+T, +E> = Success(value: T) | Failure(error: E)
}

=== FILE: paths.dfy ===
/** A simplified POSIX reading of Rust's `std::path::Path`, as far as the
    notes command uses it: the final component is what follows the last '/';
    `file_name`, `extension`, `file_stem`, `parent` and `join` are read off
    that split. Component normalisation (repeated or trailing slashes, "."
    in the middle of a path) is not part of this model. */
module Paths {
  import opened Options
  import opened Strings

  const Sep: char := '/'

  /** What follows the last separator (the whole path if there is none). */
  function FinalComponent(p: string): (r: string)
    ensures Sep !in r
    ensures EndsWith(p, r)
    ensures |r| < |p| ==> p[|p| - |r| - 1] == Sep
  {
    match LastIndex(p, Sep)
    case None => p
    case Some(i) => p[i + 1..]
  }

  /** `Path::file_name`: the final component, unless it is empty, "." or "..". */
  function FileName(p: string): (r: Option<string>)
    ensures r.Some? ==> |r.value| > 0 && Sep !in r.value && r.value != "." && r.value != ".."
    ensures r.Some? ==> EndsWith(p, r.value) && (|r.value| == |p| || p[|p| - |r.value| - 1] == Sep)
  {
    var name := FinalComponent(p);
    if name == "" || name == "." || name == ".." then None else Some(name)
  }

  /** Where a file name splits into stem and extension: the last '.' that is
      not the first character. */
  function ExtensionDot(name: string): (r: Option<nat>)
    ensures r.Some? ==> 0 < r.value < |name| && name[r.value] == '.' && '.' !in name[r.value + 1..]
    ensures r.None? ==> forall j :: 0 < j < |name| ==> name[j] != '.'
  {
    match LastIndex(name, '.')
    case Some(j) => if j > 0 then Some(j) else None
    case None => None
  }

  /** `Path::extension`. */
  function Extension(p: string): (r: Option<string>)
    ensures r.Some? ==> FileName(p).Some? && '.' !in r.value && Sep !in r.value
  {
    match FileName(p)
    case None => None
    case Some(name) =>
      match ExtensionDot(name)
      case None => None
      case Some(j) =>
        Some(name[j + 1..])
  }

  /** `Path::file_stem`. */
  function Stem(p: string): (r: Option<string>)
    ensures r.Some? <==> FileName(p).Some?
    ensures r.Some? ==> |r.value| > 0 && Sep !in r.value && StartsWith(FileName(p).value, r.value)
  {
    match FileName(p)
    case None => None
    case Some(name) =>
      match ExtensionDot(name)
      case None => Some(name)
      case Some(j) => Some(name[..j])
  }

  /** `Path::parent`: the path without its final component; none for the
      empty path and for the root. */
  function Parent(p: string): (r: Option<string>)
    ensures r.None? <==> p == "" || p == [Sep]
    ensures r.Some? ==> StartsWith(p, r.value) && |r.value| < |p|
  {
    if p == "" then None
    else
      match LastIndex(p, Sep)
      case None => Some("")
      case Some(i) => if i == 0 then (if |p| == 1 then None else Some([Sep])) else Some(p[..i])
  }

  /** `Path::join`: an absolute `f` replaces `d`; otherwise `f` goes after
      `d`, with a separator unless `d` is empty or already ends in one. */
  function Join(d: string, f: string): (r: string)
    ensures StartsWith(f, [Sep]) ==> r == f
    ensures !StartsWith(f, [Sep]) ==> StartsWith(r, d) && EndsWith(r, f)
  {
    if |f| > 0 && f[0] == Sep then f
    else if d == "" then f
    else if d[|d| - 1] == Sep then d + f
    else d + [Sep] + f
  }

  /** `c` at index `k` and nowhere after it: `k` is the last index of `c`. */
  lemma LastIndexIs(s: string, c: char, k: nat)
    requires k < |s| && s[k] == c && forall j :: k < j < |s| ==> s[j] != c
    ensures LastIndex(s, c) == Some(k)
  {
  }

  /** No two separators in a row. */
  predicate NoDoubleSep(p: string) {
    forall i :: 0 < i < |p| ==> p[i - 1] != Sep || p[i] != Sep
  }

  /** A directory string whose last character is a separator only when it is the root. */
  predicate TidyDir(d: string) {
    d == [Sep] || d == "" || d[|d| - 1] != Sep
  }

  /** The stem and the extension put back together give the file name. */
  lemma StemAndExtensionRebuildName(p: string)
    requires FileName(p).Some?
    ensures Extension(p).Some? ==> FileName(p).value == Stem(p).value + "." + Extension(p).value
    ensures Extension(p).None? ==> FileName(p).value == Stem(p).value
  {
    var name := FileName(p).value;
    match ExtensionDot(name)
    case None =>
    case Some(j) =>
      SplitAround(name, j);
  }

  /** A string is what precedes index `j`, the character there, and what follows. */
  lemma SplitAround(s: string, j: nat)
    requires j < |s|
    ensures s == s[..j] + [s[j]] + s[j + 1..]
  {
  }

  /** A file name of the form `base.ext`, with no '.' in `ext`, has exactly
      that stem and that extension. */
  lemma NameWithExtension(p: string, base: string, ext: string)
    requires FileName(p) == Some(base + "." + ext) && |base| > 0 && '.' !in ext
    ensures Extension(p) == Some(ext) && Stem(p) == Some(base)
  {
    var name := base + "." + ext;
    DotBeforeExtension(base, ext);
    assert name[..|base|] == base && name[|base| + 1..] == ext;
  }

  lemma DotBeforeExtension(base: string, ext: string)
    requires |base| > 0 && '.' !in ext
    ensures ExtensionDot(base + "." + ext) == Some(|base|)
  {
    LastIndexIs(base + "." + ext, '.', |base|);
  }

  /** Every path with a file name has a parent. */
  lemma FileNameHasParent(p: string)
    requires FileName(p).Some?
    ensures Parent(p).Some?
  {
  }

  /** Joining a plain file name onto a directory: the file name, the parent
      and the extension are read back unchanged. */
  lemma JoinThenSplit(d: string, f: string)
    requires |f| > 0 && Sep !in f && f != "." && f != ".."
    ensures FileName(Join(d, f)) == Some(f)
    ensures TidyDir(d) ==> Parent(Join(d, f)) == Some(d)
  {
    var p := Join(d, f);
    if d == "" {
      assert p == f;
    } else if d[|d| - 1] == Sep {
      assert p == d + f;
      LastIndexIs(p, Sep, |d| - 1);
      assert p[|d|..] == f;
    } else {
      assert p == d + [Sep] + f;
      LastIndexIs(p, Sep, |d|);
      assert p[|d| + 1..] == f;
      assert p[..|d|] == d;
    }
  }

  /** Splitting a path into parent and file name and joining them again gives
      the path back, when no separators are doubled. */
  lemma SplitThenJoin(p: string)
    requires FileName(p).Some? && NoDoubleSep(p)
    ensures Parent(p).Some? && Join(Parent(p).value, FileName(p).value) == p
  {
    var name := FileName(p).value;
    match LastIndex(p, Sep)
    case None =>
    case Some(i) =>
      assert name == p[i + 1..];
      if i == 0 {
        assert p == [Sep] + name;
      } else {
        assert p[i - 1] != Sep;
        assert p == p[..i] + [Sep] + name;
      }
  }

  /** `split_basename` (dead code in the program, kept for the round trip it implies):
      the parent directory and the file name, or none when either is missing. */
  function SplitBasename(p: string): (r: Option<(string, string)>)
    ensures r.Some? <==> FileName(p).Some?
    ensures r.Some? ==> Some(r.value.0) == Parent(p) && Some(r.value.1) == FileName(p)
  {
    match FileName(p)
    case None => None
    case Some(name) =>
      match Parent(p)
      case None => None
      case Some(dir) => Some((dir, name))
  }

  /** The two parts of `split_basename` join back to the path, when no
      separators are doubled. */
  lemma SplitBasenameJoinsBack(p: string)
    requires SplitBasename(p).Some? && NoDoubleSep(p)
    ensures Join(SplitBasename(p).value.0, SplitBasename(p).value.1) == p
  {
    SplitThenJoin(p);
  }
}

=== FILE: seqs.dfy ===
/** Order-preserving selection from a sequence: Rust's `into_iter().filter(..).collect()`. */
module Seqs {

  /** The elements of `s` that satisfy `keep`, in their original order. */
  function Filter<T>(s: seq<T>, keep: T -> bool): (r: seq<T>)
    ensures |r| <= |s|
    ensures forall i :: 0 <= i < |r| ==> keep(r[i])
    ensures forall i :: 0 <= i < |r| ==> r[i] in s
    ensures forall i :: 0 <= i < |s| && keep(s[i]) ==> s[i] in r
  {
    if |s| == 0 then []
    else if keep(s[0]) then [s[0]] + Filter(s[1..], keep)
    else Filter(s[1..], keep)
  }

  /** How many elements of `s` satisfy `keep`. */
  function Count<T>(s: seq<T>, keep: T -> bool): nat {
    if |s| == 0 then 0
    else (if keep(s[0]) then 1 else 0) + Count(s[1..], keep)
  }

  /** `a` can be obtained from `b` by deleting elements. */
  predicate IsSubsequence<T(==)>(a: seq<T>, b: seq<T>)
    decreases |b|
  {
    |a| == 0 || (|b| > 0 && ((a[0] == b[0] && IsSubsequence(a[1..], b[1..])) || IsSubsequence(a, b[1..])))
  }

  /** Every sequence is a subsequence of itself. */
  lemma {:induction false} IsSubsequenceOfItself<T>(s: seq<T>)
    ensures IsSubsequence(s, s)
    decreases |s|
  {
    if |s| > 0 {
      IsSubsequenceOfItself(s[1..]);
    }
  }

  /** The filter keeps its input's order and exactly as many elements as satisfy `keep`. */
  lemma {:induction false} FilterIsOrderedSelection<T>(s: seq<T>, keep: T -> bool)
    ensures IsSubsequence(Filter(s, keep), s)
    ensures |Filter(s, keep)| == Count(s, keep)
  {
    if |s| > 0 {
      var rest := Filter(s[1..], keep);
      FilterIsOrderedSelection(s[1..], keep);
      if keep(s[0]) {
        assert ([s[0]] + rest)[1..] == rest;
      }
    }
  }

  /** A subsequence all of whose elements satisfy `keep` has at most `Count` of them. */
  lemma {:induction false} SelectionIsNoLongerThanCount<T>(a: seq<T>, s: seq<T>, keep: T -> bool)
    requires IsSubsequence(a, s)
    requires forall i :: 0 <= i < |a| ==> keep(a[i])
    ensures |a| <= Count(s, keep)
    decreases |s|
  {
    if |a| > 0 {
      if a[0] == s[0] && IsSubsequence(a[1..], s[1..]) {
        SelectionIsNoLongerThanCount(a[1..], s[1..], keep);
      } else {
        SelectionIsNoLongerThanCount(a, s[1..], keep);
      }
    }
  }

  /** The filter is the only order-preserving selection of all the elements that
      satisfy `keep`: any subsequence of kept elements as long as `Count` is it. */
  lemma {:induction false} FullSelectionIsFilter<T>(a: seq<T>, s: seq<T>, keep: T -> bool)
    requires IsSubsequence(a, s)
    requires forall i :: 0 <= i < |a| ==> keep(a[i])
    requires |a| == Count(s, keep)
    ensures a == Filter(s, keep)
    decreases |s|
  {
    FilterIsOrderedSelection(s, keep);
    if |s| > 0 && |a| > 0 {
      if keep(s[0]) {
        if IsSubsequence(a, s[1..]) {
          SelectionIsNoLongerThanCount(a, s[1..], keep);
          assert false;
        }
        FullSelectionIsFilter(a[1..], s[1..], keep);
        assert a == [a[0]] + a[1..];
      } else {
        assert a[0] != s[0];
        FullSelectionIsFilter(a, s[1..], keep);
      }
    }
  }

  /** Two filters in a row are one filter by both conditions. */
  lemma {:induction false} FilterTwice<T>(s: seq<T>, p: T -> bool, q: T -> bool, both: T -> bool)
    requires forall x :: both(x) == (p(x) && q(x))
    ensures Filter(Filter(s, p), q) == Filter(s, both)
  {
    if |s| > 0 {
      FilterTwice(s[1..], p, q, both);
      if p(s[0]) {
        assert ([s[0]] + Filter(s[1..], p))[1..] == Filter(s[1..], p);
      }
    }
  }
}

=== FILE: slug.dfy ===
/** The title-to-filename slug of the notes command (`title_to_filename`). */
module Slugs {
  import opened Strings

  /** The separator a title may use between a page and its parent topic. */
  const SpacedSlash: string := " / "

  /** The one-character patterns rewritten to '-', in the order the program applies them. */
  const DashedChars: string := " :,."

  /** Characters that never appear in a slug. ('.' may: it stands for a bare '/'.) */
  const UnsafeChars: string := " :,/"

  /** Where one character of the title ends up once `" / "` has been collapsed:
      the reference the whole pipeline is checked against. */
  function SlugChar(c: char): char {
    if c in DashedChars then '-' else if c == '/' then '.' else c
  }

  /** Replace each character of `pats`, one after the other, by `rep`
      (the `for bad in vec![..]` loop). */
  function ReplaceEach(s: string, pats: string, rep: char): string
    decreases |pats|
  {
    if |pats| == 0 then s
    else ReplaceEach(ReplaceAll(s, [pats[0]], [rep]), pats[1..], rep)
  }

  /** Replacing each of several characters by `rep` in turn is one pointwise map,
      whatever the order and even if `rep` is itself among them. */
  lemma {:induction false} ReplaceEachIsMap(s: string, pats: string, rep: char)
    ensures var r := ReplaceEach(s, pats, rep);
      |r| == |s| && forall i :: 0 <= i < |s| ==> r[i] == (if s[i] in pats then rep else s[i])
    decreases |pats|
  {
    if |pats| > 0 {
      var s' := ReplaceAll(s, [pats[0]], [rep]);
      ReplaceCharIsMap(s, pats[0], rep);
      ReplaceEachIsMap(s', pats[1..], rep);
      assert forall c :: c in pats <==> c == pats[0] || c in pats[1..];
    }
  }

  /** The file-name part derived from a title, before the extension is appended. */
  function Slug(title: string): (r: string)
    ensures |r| <= |title|
    ensures forall i :: 0 <= i < |r| ==> r[i] !in UnsafeChars
  {
    var joined := ReplaceAll(title, SpacedSlash, ".");
    var dashed := ReplaceEach(joined, DashedChars, '-');
    ReplaceAllNotLonger(title, SpacedSlash, ".");
    ReplaceEachIsMap(joined, DashedChars, '-');
    ReplaceCharIsMap(dashed, '/', '.');
    ReplaceAll(dashed, "/", ".")
  }

  /** `title_to_filename(title, ext)`. */
  function TitleToFilename(title: string, ext: string): (r: string)
    ensures EndsWith(r, "." + ext)
  {
    Slug(title) + "." + ext
  }

  /** The slug is the title with `" / "` collapsed to '.', then mapped by `SlugChar`:
      the three replace-all passes agree with the one-character reference. */
  lemma SlugIsPointwise(title: string)
    ensures var joined := ReplaceAll(title, SpacedSlash, ".");
      |Slug(title)| == |joined| && forall i :: 0 <= i < |joined| ==> Slug(title)[i] == SlugChar(joined[i])
  {
    var joined := ReplaceAll(title, SpacedSlash, ".");
    ReplaceEachIsMap(joined, DashedChars, '-');
    ReplaceCharIsMap(ReplaceEach(joined, DashedChars, '-'), '/', '.');
  }

  /** No space, colon, comma or slash survives in a slug, and a slug is never
      longer than its title. */
  lemma SlugIsSafe(title: string)
    ensures forall i :: 0 <= i < |Slug(title)| ==> Slug(title)[i] !in UnsafeChars
    ensures |Slug(title)| <= |title|
  {
    SlugIsPointwise(title);
    ReplaceAllNotLonger(title, SpacedSlash, ".");
  }

  /** The file name ends with '.' and the extension, and everything before
      that is a slug free of spaces, colons, commas and slashes. */
  lemma FilenameIsSafe(title: string, ext: string)
    ensures var r := TitleToFilename(title, ext);
      EndsWith(r, "." + ext) && forall i :: 0 <= i < |r| - |ext| - 1 ==> r[i] !in UnsafeChars
  {
    SlugIsSafe(title);
  }

  /** Without a spaced slash the slug has the title's length and is the
      title mapped character by character. */
  lemma SlugOfPlainTitleIsMap(title: string)
    requires !Contains(title, SpacedSlash)
    ensures |Slug(title)| == |title| && forall i :: 0 <= i < |title| ==> Slug(title)[i] == SlugChar(title[i])
  {
    SlugIsPointwise(title);
    ReplaceAllAbsent(title, SpacedSlash, ".");
  }

  /** Every character other than space, colon, comma, period and slash keeps
      its place and value when the title has no spaced slash; no letter is
      ever re-cased. */
  lemma SlugKeepsOrdinaryChars(title: string, i: nat)
    requires !Contains(title, SpacedSlash)
    requires i < |title| && title[i] !in UnsafeChars && title[i] != '.'
    ensures i < |Slug(title)| && Slug(title)[i] == title[i]
  {
    SlugOfPlainTitleIsMap(title);
  }

  /** A title without any '/' cannot hold a spaced slash. */
  lemma {:induction false} NoSlashNoSpacedSlash(t: string)
    requires '/' !in t
    ensures !Contains(t, SpacedSlash)
    decreases |t|
  {
    if |t| > 0 {
      assert !StartsWith(t, SpacedSlash) by {
        if |t| >= 3 {
          assert t[..3][1] == t[1];
        }
      }
      NoSlashNoSpacedSlash(t[1..]);
    }
  }

  /** With no spaced slash, the slug is the title mapped by `SlugChar`. */
  lemma SlugOfPlainTitle(t: string, e: string)
    requires !Contains(t, SpacedSlash)
    requires |e| == |t| && forall i :: 0 <= i < |t| ==> e[i] == SlugChar(t[i])
    ensures Slug(t) == e
  {
    SlugOfPlainTitleIsMap(t);
  }

  /** The file name of a slash-free title is its character map, '.', and the extension. */
  lemma FilenameOfPlainTitle(t: string, ext: string, e: string)
    requires '/' !in t
    requires |e| == |t| && forall i :: 0 <= i < |t| ==> e[i] == SlugChar(t[i])
    ensures Slug(t) == e && TitleToFilename(t, ext) == e + "." + ext
  {
    NoSlashNoSpacedSlash(t);
    SlugOfPlainTitle(t, e);
  }

  /** When the only '/' of a title sits inside one `" / "`, the first pass
      turns exactly that separator into a single '.'. */
  lemma {:induction false} CollapseOneSpacedSlash(a: string, b: string)
    requires '/' !in a && '/' !in b
    ensures ReplaceAll(a + SpacedSlash + b, SpacedSlash, ".") == a + "." + b
    decreases |a|
  {
    var s := a + SpacedSlash + b;
    if |a| == 0 {
      assert s == SpacedSlash + b;
      CollapseLeadingSpacedSlash(b);
    } else {
      assert s[1] != '/' by {
        if |a| == 1 { assert s[1] == ' '; } else { assert s[1] == a[1]; }
      }
      assert s[..3] != SpacedSlash by { assert s[..3][1] == s[1]; }
      assert ReplaceAll(s, SpacedSlash, ".") == [s[0]] + ReplaceAll(s[1..], SpacedSlash, ".");
      assert s[1..] == a[1..] + SpacedSlash + b;
      CollapseOneSpacedSlash(a[1..], b);
      assert ReplaceAll(s[1..], SpacedSlash, ".") == a[1..] + "." + b;
      assert s[0] == a[0];
      assert [a[0]] + (a[1..] + "." + b) == a + "." + b;
    }
  }

  /** A leading spaced slash before slash-free text becomes a single '.'. */
  lemma CollapseLeadingSpacedSlash(b: string)
    requires '/' !in b
    ensures ReplaceAll(SpacedSlash + b, SpacedSlash, ".") == "." + b
  {
    var s := SpacedSlash + b;
    assert s[..3] == SpacedSlash && s[3..] == b;
    NoSlashNoSpacedSlash(b);
    ReplaceAllAbsent(b, SpacedSlash, ".");
  }

  /** A spaced slash between two slash-free parts becomes one '-' in the slug. */
  lemma SpacedSlashBecomesDash(a: string, b: string)
    requires '/' !in a && '/' !in b
    ensures Slug(a + SpacedSlash + b) == Slug(a) + "-" + Slug(b)
  {
    var joined := a + "." + b;
    CollapseOneSpacedSlash(a, b);
    SlugIsPointwise(a + SpacedSlash + b);
    NoSlashNoSpacedSlash(a);
    NoSlashNoSpacedSlash(b);
    SlugOfPlainTitleIsMap(a);
    SlugOfPlainTitleIsMap(b);
    var r, ra, rb := Slug(a + SpacedSlash + b), Slug(a), Slug(b);
    assert |r| == |joined|;
    forall i | 0 <= i < |r|
      ensures r[i] == (ra + "-" + rb)[i]
    {
      if i < |a| {
        assert joined[i] == a[i];
      } else if i == |a| {
        assert joined[i] == '.';
      } else {
        assert joined[i] == b[i - |a| - 1];
      }
    }
  }

  /** The file name of `a / b`, for slash-free `a` and `b`: their character
      maps joined by one '-', then '.' and the extension. */
  lemma FilenameOfSpacedPair(a: string, b: string, ext: string, ea: string, eb: string)
    requires '/' !in a && '/' !in b
    requires |ea| == |a| && forall i :: 0 <= i < |a| ==> ea[i] == SlugChar(a[i])
    requires |eb| == |b| && forall i :: 0 <= i < |b| ==> eb[i] == SlugChar(b[i])
    ensures TitleToFilename(a + SpacedSlash + b, ext) == ea + "-" + eb + "." + ext
  {
    SpacedSlashBecomesDash(a, b);
    FilenameOfPlainTitle(a, ext, ea);
    FilenameOfPlainTitle(b, ext, eb);
  }

  /** The doc-comment example as the code computes it: letters keep their case. */
  lemma TitleOfThePageExample(t: string)
    requires t == "Title of the Page"
    ensures TitleToFilename(t, "md") == "Title-of-the-Page.md"
  {
    var e := "Title-of-the-Page";
    TitleOfThePageChars();
    FilenameOfPlainTitle(t, "md", e);
    assert e + "." + "md" == "Title-of-the-Page.md";
  }

  lemma TitleOfThePageChars()
    ensures var t, e := "Title of the Page", "Title-of-the-Page";
      '/' !in t && |e| == |t| && forall i :: 0 <= i < |t| ==> e[i] == SlugChar(t[i])
  {
  }

  /** A spaced slash collapses to a single '-', not to '.'. */
  lemma SpacedSlashExample(t: string)
    requires t == "A / B"
    ensures TitleToFilename(t, "md") == "A-B.md"
  {
    var a, b := t[..1], t[4..];
    assert a == "A" && b == "B" && t == a + SpacedSlash + b;
    FilenameOfSpacedPair(a, b, "md", "A", "B");
    assert "A" + "-" + "B" + "." + "md" == "A-B.md";
  }

  /** A bare slash becomes '.'. */
  lemma BareSlashExample(t: string)
    requires t == "a/b"
    ensures TitleToFilename(t, "md") == "a.b.md"
  {
    assert !Contains(t, SpacedSlash) by {
      ContainsAt(t, SpacedSlash);
      forall i: nat | i + |SpacedSlash| <= |t|
        ensures !OccursAt(t, SpacedSlash, i)
      {
        assert t[i..i + 3][0] == 'a';
      }
    }
    SlugOfPlainTitle(t, "a.b");
  }

  /** Colons, commas, spaces and periods each become '-', one for one. */
  lemma PunctuationExample(t: string)
    requires t == "A: B, C."
    ensures TitleToFilename(t, "txt") == "A--B--C-.txt"
  {
    var e := "A--B--C-";
    PunctuationChars();
    FilenameOfPlainTitle(t, "txt", e);
    assert e + "." + "txt" == "A--B--C-.txt";
  }

  lemma PunctuationChars()
    ensures var t, e := "A: B, C.", "A--B--C-";
      '/' !in t && |e| == |t| && forall i :: 0 <= i < |t| ==> e[i] == SlugChar(t[i])
  {
  }
}

=== FILE: strings.dfy ===
/** Text operations of Rust's `str` that the program relies on, over `seq<char>`. */
module Strings {
  import opened Options

  /** `s.starts_with(prefix)`. */
  predicate StartsWith(s: string, prefix: string) {
    |prefix| <= |s| && s[..|prefix|] == prefix
  }

  /** `s.ends_with(suffix)`. */
  predicate EndsWith(s: string, suffix: string) {
    |suffix| <= |s| && s[|s| - |suffix|..] == suffix
  }

  /** `s.contains(sub)`: `sub` occurs somewhere in `s`. */
  predicate Contains(s: string, sub: string)
    decreases |s|
  {
    StartsWith(s, sub) || (|s| > 0 && Contains(s[1..], sub))
  }

  /** A copy of `sub` starts at index `i` of `s`. */
  predicate OccursAt(s: string, sub: string, i: nat) {
    i + |sub| <= |s| && s[i..i + |sub|] == sub
  }

  /** `Contains` agrees with the positional reading: some index starts a copy of `sub`. */
  lemma {:induction false} ContainsAt(s: string, sub: string)
    ensures Contains(s, sub) <==> exists i: nat :: OccursAt(s, sub, i)
    decreases |s|
  {
    if |s| > 0 {
      ContainsAt(s[1..], sub);
      forall i: nat | OccursAt(s[1..], sub, i)
        ensures OccursAt(s, sub, i + 1)
      {
        assert s[i + 1..i + 1 + |sub|] == s[1..][i..i + |sub|];
      }
      forall i: nat | i > 0 && OccursAt(s, sub, i)
        ensures OccursAt(s[1..], sub, i - 1)
      {
        assert s[i..i + |sub|] == s[1..][i - 1..i - 1 + |sub|];
      }
    }
    if StartsWith(s, sub) {
      assert OccursAt(s, sub, 0);
    }
    if OccursAt(s, sub, 0) {
      assert StartsWith(s, sub);
    }
  }

  /** `s.replace(pat, rep)`: every leftmost, non-overlapping occurrence of
      `pat`, scanning from the front, is replaced by `rep`. */
  function ReplaceAll(s: string, pat: string, rep: string): (r: string)
    requires |pat| > 0
    ensures |rep| <= |pat| ==> |r| <= |s|
    decreases |s|
  {
    if |s| < |pat| then s
    else if s[..|pat|] == pat then rep + ReplaceAll(s[|pat|..], pat, rep)
    else [s[0]] + ReplaceAll(s[1..], pat, rep)
  }

  /** With no occurrence of the pattern, replacing leaves the text as it was. */
  lemma {:induction false} ReplaceAllAbsent(s: string, pat: string, rep: string)
    requires |pat| > 0 && !Contains(s, pat)
    ensures ReplaceAll(s, pat, rep) == s
    decreases |s|
  {
    if |s| >= |pat| {
      ReplaceAllAbsent(s[1..], pat, rep);
      assert [s[0]] + s[1..] == s;
    }
  }

  /** A replacement no longer than its pattern never lengthens the text. */
  lemma {:induction false} ReplaceAllNotLonger(s: string, pat: string, rep: string)
    requires |pat| > 0 && |rep| <= |pat|
    ensures |ReplaceAll(s, pat, rep)| <= |s|
    decreases |s|
  {
    if |s| >= |pat| {
      if s[..|pat|] == pat {
        ReplaceAllNotLonger(s[|pat|..], pat, rep);
      } else {
        ReplaceAllNotLonger(s[1..], pat, rep);
      }
    }
  }

  /** Replacing one character by one character is a pointwise map. */
  lemma {:induction false} ReplaceCharIsMap(s: string, c: char, d: char)
    ensures var r := ReplaceAll(s, [c], [d]);
      |r| == |s| && forall i :: 0 <= i < |s| ==> r[i] == (if s[i] == c then d else s[i])
    decreases |s|
  {
    if |s| > 0 {
      ReplaceCharIsMap(s[1..], c, d);
      assert s[..1] == [s[0]];
    }
  }

  /** Index of the last occurrence of `c` in `s` (Rust's `rfind` for one character). */
  function LastIndex(s: string, c: char): (r: Option<nat>)
    ensures r.Some? ==> r.value < |s| && s[r.value] == c && forall j :: r.value < j < |s| ==> s[j] != c
    ensures r.None? ==> c !in s
  {
    if |s| == 0 then None
    else if s[|s| - 1] == c then Some(|s| - 1)
    else LastIndex(s[..|s| - 1], c)
  }

  /** Index of the first occurrence of `c` in `s` (Rust's `find` for one character). */
  function FirstIndex(s: string, c: char): (r: Option<nat>)
    ensures r.Some? ==> r.value < |s| && s[r.value] == c && c !in s[..r.value]
    ensures r.None? ==> c !in s
  {
    if |s| == 0 then None
    else if s[0] == c then Some(0)
    else
      match FirstIndex(s[1..], c)
      case None => None
      case Some(i) =>
        assert s[..i + 1] == [s[0]] + s[1..][..i];
        Some(i + 1)
  }
}

=== FILE: subpage.dfy ===
/** The `notes subpage` arm: a title taken from the clipboard becomes a new
    note next to a source note, and a markdown link to it is produced. */
module SubPage {
  import opened Options
  import opened Strings
  import opened Paths
  import opened Slugs

  /** Why the program would panic instead of producing a link. */
  datatype SubPageError = NoClipboard | NoExtension | NoParent | NoStem

  /** The path of the new sub-page next to `source`, or the first step that fails. */
  function SubPagePath(title: string, source: string): (r: Result<string, SubPageError>)
    ensures r.Failure? <==> Extension(source).None?
    ensures r.Failure? ==> r.error == NoExtension
  {
    match Extension(source)
    case None => Failure(NoExtension)
    case Some(ext) =>
      var filename := TitleToFilename(title, ext);
      FileNameHasParent(source);
      match Parent(source)
      case None => Failure(NoParent)
      case Some(dir) =>
        match Stem(source)
        case None => Failure(NoStem)
        case Some(root) => Success(Join(dir, root + "." + filename))
  }

  /** The new note sits in the source's directory, keeps the source's
      extension, and its stem is the source's stem, a '.', and the slug. */
  lemma SubPagePathShape(title: string, source: string)
    requires Extension(source).Some?
    ensures var r := SubPagePath(title, source);
      && r.Success?
      && FileName(r.value) == Some(Stem(source).value + "." + TitleToFilename(title, Extension(source).value))
      && Extension(r.value) == Extension(source)
      && Stem(r.value) == Some(Stem(source).value + "." + Slug(title))
      && (TidyDir(Parent(source).value) ==> Parent(r.value) == Parent(source))
  {
    var ext, root := Extension(source).value, Stem(source).value;
    FileNameHasParent(source);
    var dir := Parent(source).value;
    var base := root + "." + Slug(title);
    var name := root + "." + TitleToFilename(title, ext);
    FilenameAfterStem(root, title, ext);
    SlugIsSafe(title);
    JoinThenSplit(dir, name);
    NameWithExtension(Join(dir, name), base, ext);
  }

  lemma FilenameAfterStem(root: string, title: string, ext: string)
    ensures root + "." + TitleToFilename(title, ext) == (root + "." + Slug(title)) + "." + ext
  {
    var slug := Slug(title);
    assert TitleToFilename(title, ext) == slug + "." + ext;
  }

  /** The markdown link `[title](target)`. */
  function MarkdownLink(title: string, target: string): (r: string)
    ensures |r| == |title| + |target| + 4
    ensures r[0] == '[' && r[|r| - 1] == ')'
  {
    "[" + title + "](" + target + ")"
  }

  /** Reads a markdown link back: the title runs to the first ']', which
      must be followed by '(', and the target runs to the final ')'. */
  function ParseLink(link: string): (r: Option<(string, string)>)
    ensures r.Some? ==> ']' !in r.value.0
  {
    if |link| < 4 || link[0] != '[' || link[|link| - 1] != ')' then None
    else
      match FirstIndex(link, ']')
      case None => None
      case Some(k) =>
        if k + 2 < |link| && link[k + 1] == '(' then
          assert link[1..k] == link[..k][1..];
          Some((link[1..k], link[k + 2..|link| - 1]))
        else None
  }

  /** A link whose title has no ']' reads back as its title and target. */
  lemma {:induction false} LinkRoundTrip(title: string, target: string)
    requires ']' !in title
    ensures ParseLink(MarkdownLink(title, target)) == Some((title, target))
  {
    var link := MarkdownLink(title, target);
    var k := |title| + 1;
    assert link[k] == ']' && link[k + 1] == '(';
    assert link[..k] == "[" + title;
    assert FirstIndex(link, ']') == Some(k);
    assert link[1..k] == title;
    assert link[k + 2..|link| - 1] == target;
  }

  /** `notes subpage`: the clipboard holds the title; the result is the link
      from the title to the new sub-page, or the first step that fails. */
  function SubPageLink(clipboard: Option<string>, source: string): (r: Result<string, SubPageError>)
    ensures r.Failure? <==> clipboard.None? || Extension(source).None?
    ensures clipboard.None? ==> r == Failure(NoClipboard)
    ensures clipboard.Some? && r.Failure? ==> r.error == NoExtension
  {
    match clipboard
    case None => Failure(NoClipboard)
    case Some(title) =>
      match SubPagePath(title, source)
      case Failure(e) => Failure(e)
      case Success(target) => Success(MarkdownLink(title, target))
  }

  /** The link produced for a bracket-free title reads back as that title and
      a target that is the sub-page next to `source`. */
  lemma SubPageLinkReadsBack(title: string, source: string)
    requires ']' !in title && Extension(source).Some?
    ensures SubPageLink(Some(title), source).Success? && Parent(source).Some?
    ensures var parsed := ParseLink(SubPageLink(Some(title), source).value);
      parsed.Some? && parsed.value.0 == title
      && (TidyDir(Parent(source).value) ==> Parent(parsed.value.1) == Parent(source))
    ensures var parsed := ParseLink(SubPageLink(Some(title), source).value);
      parsed.Some? && Stem(parsed.value.1) == Some(Stem(source).value + "." + Slug(title))
      && Extension(parsed.value.1) == Extension(source)
  {
    FileNameHasParent(source);
    SubPagePathShape(title, source);
    LinkRoundTrip(title, SubPagePath(title, source).value);
  }

  /** For a source `dir/root.ext`, the sub-page is `dir/root.<slug>.ext`. */
  lemma SubPagePathOf(dir: string, root: string, ext: string, title: string)
    requires TidyDir(dir) && |root| > 0 && |ext| > 0
    requires Sep !in root && Sep !in ext && '.' !in ext
    ensures SubPagePath(title, Join(dir, root + "." + ext))
      == Success(Join(dir, root + "." + TitleToFilename(title, ext)))
  {
    var name := root + "." + ext;
    assert name[|root|] == '.' && name != "." && name != "..";
    JoinThenSplit(dir, name);
    NameWithExtension(Join(dir, name), root, ext);
  }

  /** The link for a source `dir/root.ext`. */
  lemma SubPageLinkOf(dir: string, root: string, ext: string, title: string)
    requires TidyDir(dir) && |root| > 0 && |ext| > 0
    requires Sep !in root && Sep !in ext && '.' !in ext
    ensures SubPageLink(Some(title), Join(dir, root + "." + ext))
      == Success(MarkdownLink(title, Join(dir, root + "." + TitleToFilename(title, ext))))
  {
    SubPagePathOf(dir, root, ext, title);
  }

  /** The usage example: `/path/to/source.md` and the title `Title of the Page`. */
  lemma SourceNoteExample(title: string, source: string)
    requires title == "Title of the Page" && source == "/path/to/source.md"
    ensures SubPageLink(Some(title), source)
      == Success(MarkdownLink(title, "/path/to/source." + "Title-of-the-Page.md"))
  {
    var dir, root, ext := "/path/to", "source", "md";
    assert source == Join(dir, root + "." + ext);
    SubPageLinkOf(dir, root, ext, title);
    TitleOfThePageExample(title);
    SourceNoteTarget(TitleToFilename(title, ext));
  }

  lemma SourceNoteTarget(filename: string)
    requires filename == "Title-of-the-Page.md"
    ensures Join("/path/to", "source" + "." + filename) == "/path/to/source." + filename
  {
    var name := "source" + "." + filename;
    assert name[0] == 's' && "/path/to"[7] == 'o';
    assert Join("/path/to", name) == "/path/to" + "/" + name;
    assert "/path/to" + "/" + "source" + "." == "/path/to/source.";
  }

  /** A final component whose only '.' (if any) leads it has no extension. */
  lemma NoDotNoExtension(p: string)
    requires Sep !in p && forall j :: 0 < j < |p| ==> p[j] != '.'
    ensures Extension(p).None?
  {
    if FileName(p).Some? {
      assert FileName(p).value == p;
    }
  }

  /** A source without an extension yields no link, whatever the clipboard holds. */
  lemma NoExtensionExample(title: string, source: string)
    requires source == "README" || source == ".bashrc"
    ensures SubPageLink(Some(title), source) == Failure(NoExtension)
  {
    NoDotNoExtension(source);
  }
}
